=== FILE: README.md ===
# Deployment scheduling and device-group rules of the fleet console, in Dafny

This project models the pure decision logic inside three views of a
device-fleet management console:

- **Deployment wizard** (`createdeployment.js`). It computes cascading start times for a phased
  rollout, normalises the device selection, looks up the filter behind a
  group, gates the "Create deployment" button, assembles the deployment
  request, and, once the deployment is created, updates the user's history
  of recent rollout patterns.
- **Device-groups view** (`device-groups.js`). It covers the props selector (which devices
  and counts are shown, and the sorted group list), recognition and
  normalisation of the "ungrouped" pseudo-group, paging of ungrouped
  devices, classification of a removal, and the choice of fetch in
  `_getDevices` together with what follows its outcome.
- **Dashboard** (`dashboard.js`). It covers the navigation path for a click and the warning
  text shown when deployments fail to load.

Each piece is a pure function over immutable datatypes:

- JavaScript's `undefined` is an `Option`.
- Truthiness of strings and numbers is written out (`StrTruthy`, `NumTruthy`).
- `Array.prototype.slice` is modelled with its clamping and its negative indices (`JsValues.Slice`).
- Time is an integer count of milliseconds.
- Code the views call but that is not part of this model becomes a
  function-typed parameter with no assumed contract. These are
  `validatePhases`, `standardizePhases`, `deepCompare`,
  `encodeURIComponent` and `decodeURIComponent`. The clock becomes a
  parameter: one reading per computed start time, since each call of
  `getPhaseStartTime` reads it afresh.

Modules:

| file | module | source |
|---|---|---|
| js_values.dfy | `JsValues` | JavaScript value conventions used throughout |
| phase_schedule.dfy | `PhaseSchedule` | `getPhaseStartTime` and the phase stamping in the submit handler |
| deployment_request.dfy | `DeploymentRequest` | selection normalisation, filter lookup, submit gate, request assembly |
| previous_phases.dfy | `PreviousPhases` | the success path's settings update and history of patterns |
| device_store.dfy | `DeviceStore` | the group table of the device store; `ALL_DEVICES` and `UNGROUPED_GROUP` |
| device_groups.dfy | `DeviceGroups` | ungrouped handling, paging, removal flags, fetch choice and outcome |
| device_selector.dfy | `DeviceSelector` | `mapStateToProps` of the device-groups view |
| string_order.dfy | `StringOrder` | the default string order of `Array.prototype.sort` |
| dashboard.dfy | `Dashboard` | `_handleClick` and the deployment error message |
| retry_request.dfy | `RetryRequests` | the key, message and interval handed to `setRetryTimer` |

### Behaviour worth knowing

- The request builder raises no validation error: validation only disables the button (`SubmitDisabled`).
- Targeting fields are not mutually exclusive. A dynamic group is submitted with both `filter_id` and `group` (`DynamicGroupSubmission`).
- A single-device request still carries the filter id of a stale dynamic group, or `all_devices` when the stale group is ALL_DEVICES, next to the one-device list (`SingleDeviceSubmission`).
- Without a pinned start, phase 0 stays `undefined`. The later phases are counted from the current time, read afresh for each phase, because `moment(undefined)` is "now" (`UnpinnedStartUsesNow`, `NextPhaseStart`).
- A later phase with no phases before it throws a TypeError unless the start is a `Date` (`PhaseStartTime`). The stamping loop never reaches that case.
- The pattern history does not test for equality. A saved pattern blocks a new one when each of its phases has a match in the new one, so a pattern that merely extends a saved one is not recorded (`ExtendedPatternNotRecorded`). An empty saved pattern blocks every new one (`EmptyPatternBlocksAppend`).

## Model

| member | source | states |
|---|---|---|
| PhaseSchedule.ToIso | src/js/components/deployments/createdeployment.js:48 | a Date start becomes its ISO text of the same instant; ISO text and `undefined` pass through unchanged |
| PhaseSchedule.PhaseStartTime | src/js/components/deployments/createdeployment.js:46-55 | index 0 yields the base start (ISO-converted, `undefined` kept); index i ≥ 1 yields the base (or the clock reading, if undefined) plus the total delay of the phases before i, with the slice clamped; it throws exactly when i ≥ 1, there are no phases and the start is not a Date |
| PhaseSchedule.AccumulateIsBasePlusTotal | src/js/components/deployments/createdeployment.js:53 | adding the delays one after another reaches the base plus their total, for every phase list |
| PhaseSchedule.StampPhases | src/js/components/deployments/createdeployment.js:163-168 | stamping changes only `start_ts`, keeps the length, and gives phase i the base (phase 0's start, or the clock as read for phase i) plus the delays of phases 0..i-1 |
| PhaseSchedule.NextPhaseStart | src/js/components/deployments/createdeployment.js:50-54 | start(i+1) = start(i) + duration of phase i, plus the clock's movement between the two readings when no start is pinned; exactly the duration when pinned, at least it for a clock that never goes back |
| PhaseSchedule.UnpinnedStartUsesNow | src/js/components/deployments/createdeployment.js:46-54 | with no start on phase 0, phase 0 stays undefined and phase 1 starts at phase 1's clock reading + phase 0's delay |
| PhaseSchedule.StartIgnoresOwnAndLaterPhases | src/js/components/deployments/createdeployment.js:53 | a phase's start depends only on the pinned start and the phases before it, not on its own delay |
| PhaseSchedule.StartsNonDecreasing | src/js/components/deployments/createdeployment.js:53 | with non-negative delays, and clock readings that do not go back between the two phases, a later phase never starts earlier |
| PhaseSchedule.StampIdempotent | src/js/components/deployments/createdeployment.js:154-168 | re-stamping stamped phases changes nothing when the start is pinned or the clock readings are the same |
| PhaseSchedule.UnpinnedScheduleGoesStale | src/js/components/deployments/createdeployment.js:50-53 | without a pinned start, two different clock readings for phase 1 give it different starts |
| DeploymentRequest.Normalise | src/js/components/deployments/createdeployment.js:120-130 | a selected device makes the ids exactly [device.id] with count 1; otherwise ids default to [], and the count becomes the accepted count for ALL_DEVICES or is kept; no other field changes |
| DeploymentRequest.NormaliseIdempotent | src/js/components/deployments/createdeployment.js:120-130 | the effect reaches a fixed point after one run |
| DeviceStore.Without | src/js/components/deployments/createdeployment.js:297 | the wizard's group table has no ungrouped entry and agrees with the store on every other key |
| DeploymentRequest.FilterIdFor | src/js/components/deployments/createdeployment.js:233-236 | a stored key other than the ungrouped one yields its entry's filter id; a missing key or the ungrouped key yields none |
| DeploymentRequest.WithFilterId | src/js/components/deployments/createdeployment.js:233-236 | the settings are the wizard's object with only `filterId` changed: the filter id of the group's stored entry, or none for a missing or ungrouped key |
| DeploymentRequest.UndefinedGroupReadsUndefinedKey | src/js/components/deployments/createdeployment.js:235 | with no group, every table is read at the key "undefined": the result is that of a group named "undefined" |
| DeploymentRequest.SubmitDisabled | src/js/components/deployments/createdeployment.js:237-240 | the button is enabled iff nothing is being created, a release is chosen, some target (device count, filter or group) is set and the validator accepts |
| DeploymentRequest.EnabledSubmitHasRelease | src/js/components/deployments/createdeployment.js:237-240 | an enabled button guarantees a release (so the builder's `release.Name` is defined) and validated phases |
| DeploymentRequest.BuildRequest | src/js/components/deployments/createdeployment.js:151-171 | `devices` is absent when (filter or group) and no device, and otherwise the wizard's device ids; `all_devices` iff no filter and group is ALL_DEVICES; `group` absent for a device or ALL_DEVICES; `name` is device id, else decoded group, else ALL_DEVICES; `retries` present iff canRetry and a non-zero count; phases stamped |
| DeploymentRequest.TargetFieldsConsistent | src/js/components/deployments/createdeployment.js:158-161 | no request names a group for a single device or besides all-devices; when the wizard holds device ids (always true after `Normalise`), one without devices targets a filter, group or all devices |
| DeploymentRequest.SingleDeviceSubmission | src/js/components/deployments/createdeployment.js:158-162 | a normalised selection of a device with a non-empty id is submitted as exactly that device, with no group, named after it; `filter_id` and `all_devices` still follow the stale group |
| DeploymentRequest.DynamicGroupSubmission | src/js/components/deployments/createdeployment.js:158-161 | with no device selected, a group whose stored entry carries a filter id is submitted with both that filter id and the group, and no device list |
| PreviousPhases.NextPreviousPhases | src/js/components/deployments/createdeployment.js:178-185 | the new history is a suffix of the standardised old one (plus the new pattern when no saved pattern is covered by it), of length min(total, 5), ending with the new pattern when added |
| PreviousPhases.HistoryBounded | src/js/components/deployments/createdeployment.js:185 | the history never exceeds five patterns |
| PreviousPhases.EmptyPatternBlocksAppend | src/js/components/deployments/createdeployment.js:182 | a saved pattern that standardises to [] blocks every new pattern |
| PreviousPhases.ExtendedPatternNotRecorded | src/js/components/deployments/createdeployment.js:182 | for a reflexive deepCompare, a pattern containing every phase of a saved one is not appended |
| PreviousPhases.NewPatternRecorded | src/js/components/deployments/createdeployment.js:182-185 | an uncovered pattern is appended as the latest; with five or more saved, the oldest drop out |
| PreviousPhases.SettingsAfterSuccess | src/js/components/deployments/createdeployment.js:177-186 | retries come from the wizard iff a new default was chosen; with phases, the saved history is the updated pattern list (bounded by five), and without phases the key is not written |
| DeviceGroups.IsUngroupedGroup | src/js/components/devices/device-groups.js:143-148 | true iff the group is the ungrouped id or name; false for undefined or "" |
| DeviceGroups.GroupChoice | src/js/components/devices/device-groups.js:111-114 | the ungrouped name maps to the ungrouped id; every other value is unchanged |
| DeviceGroups.GroupChoiceRecognisesUngrouped | src/js/components/devices/device-groups.js:109-116 | a choice is recognised as ungrouped iff it normalises to the ungrouped id; normalising keeps recognition and is idempotent |
| DeviceGroups.UngroupedPage | src/js/components/devices/device-groups.js:183-184 | page n is the window of at most pageLength devices starting at (n-1)*pageLength |
| DeviceGroups.PageElement | src/js/components/devices/device-groups.js:183-184 | the k-th device of page n is device (n-1)*pageLength + k of the list |
| DeviceGroups.PagesTile | src/js/components/devices/device-groups.js:182-185 | pages 1..n laid end to end are exactly the first n*pageLength devices |
| DeviceGroups.PagesDisjoint | src/js/components/devices/device-groups.js:182-185 | two different pages of a repeat-free list share no device |
| DeviceGroups.RemovalFlags | src/js/components/devices/device-groups.js:262-263 | group removal iff rows ≥ a defined groupCount; page removal iff rows equal the devices on the page |
| DeviceGroups.RemovalOfWholeGroup | src/js/components/devices/device-groups.js:262-263 | selecting a whole page that holds the group sets both flags; fewer rows than the group, or no count, never removes the group |
| DeviceGroups.FindIdFilter | src/js/components/devices/device-groups.js:173 | finds the first filter whose key is 'id', or nothing iff there is none |
| DeviceGroups.ChooseDevicesFetch | src/js/components/devices/device-groups.js:166-198 | the ungrouped group fetches nothing; another group fetches its devices; otherwise, with filters, an 'id' filter becomes a single-device lookup, else a filtered fetch; with neither, accepted devices by status |
| DeviceGroups.GroupTakesPrecedence | src/js/components/devices/device-groups.js:168-171 | with a group selected, the filters do not affect the fetch |
| DeviceGroups.DevicesErrorMessage | src/js/components/devices/device-groups.js:192 | "Devices couldn't be loaded. " then the error text, or 'Please check your connection.' when it is falsy |
| DeviceGroups.AfterDevicesFetch | src/js/components/devices/device-groups.js:180-205 | only the ungrouped page selects devices; loading stops except after a lookup; a retry with key 'devices' every 10000 ms is requested iff a real fetch failed |
| DeviceSelector.ListedKeys | src/js/components/devices/device-groups.js:428-434 | exactly the keys whose total is non-zero or whose device list is non-empty |
| StringOrder.Sort | src/js/components/devices/device-groups.js:435 | the result is sorted and a permutation of the input |
| DeviceSelector.GroupList | src/js/components/devices/device-groups.js:428-435 | the group list is sorted and holds exactly the listed keys, each as often as in the table |
| DeviceSelector.GroupListDistinct | src/js/components/devices/device-groups.js:428-435 | with distinct table keys, no group is listed twice |
| DeviceSelector.SelectGroupsView | src/js/components/devices/device-groups.js:411-450 | throws exactly when the selected group has no entry, or when there is no selected group, no selected device, an empty selected list and undefined filters; a group sets groupCount and groupDevices from its entry (devices stay the selected list); else a device gives [device]; else with nothing listed, no filters and accepted devices, the first 20 accepted ids; list ≤ 20; allCount is accepted+rejected or 0 |
| DeviceSelector.GroupSelectionHidesDevice | src/js/components/devices/device-groups.js:416-421 | a selected group wins over a selected device |
| Dashboard.ClickPath | src/js/components/dashboard/dashboard.js:78-97 | deployments gives /deployments/<tab or 'progress'>/ plus the query encoded once; devices appends the encoded status only when given; 'devices/pending' is fixed; other routes pass verbatim |
| Dashboard.DeploymentsPathRoundTrip | src/js/components/dashboard/dashboard.js:80-85 | for an invertible encoding that escapes '/', decoding the deployments path recovers the tab (any text), the open flag and the id exactly when it is truthy |
| Dashboard.DeploymentsPathsDistinguish | src/js/components/dashboard/dashboard.js:80-85 | for such an encoding, clicks with different tab, open flag or truthy id give different paths |
| Dashboard.DeploymentsErrorMessage | src/js/components/dashboard/dashboard.js:55-56 | "Couldn't load deployments. " then the error text, or 'Please check your connection' (no period) when it is falsy |
| Dashboard.DeploymentsRetry | src/js/components/dashboard/dashboard.js:53-57 | a failed deployments fetch requests a retry under 'deployments' every 30000 ms with that message |

## Left out

- Timers and polling are not modelled: `setInterval`, `clearInterval`, `setTimeout`, the lifecycle methods that start and stop them, and the retry-timer registry. The registry (utils/retrytimer.js) is not part of this model. Only the key, message and interval handed to `setRetryTimer` are modelled (`RetryRequests`).
- The error object and the notifier passed to `setRetryTimer` are not kept in `RetryRequest`. Only device-groups passes a notifier (`setSnackbar`); the dashboard passes none.
- Network and store actions are not modelled: `createDeployment`, `getGroupDevices`, `getDevices`, `getDevicesByStatus`, `trySelectDevice`, `AppActions.*`, `saveGlobalSettings`, `selectDevices` and `selectGroup`. They are asynchronous calls into other modules. Where their outcome matters, it is an input (`FetchOutcome`), and a call is represented by the value it would be given.
- Code the views call but that is not part of this model: `validatePhases`, `standardizePhases`, `deepCompare`, `encodeURIComponent` and `decodeURIComponent`. Each is a function parameter with no assumed contract.
- DeploymentRequest.BuildRequest: treats `decodeURIComponent` as total. It does not model the URIError a malformed escape in a group name would throw.
- DeploymentRequest.BuildRequest: requires a release. The handler reads `release.Name` without a guard and would throw otherwise; `EnabledSubmitHasRelease` shows an enabled button guarantees one.
- The clock readings are a parameter with no assumed order; the lemmas that need readings taken in order say so (`Monotone`).
- Calendar arithmetic is not modelled: `moment` units are fixed lengths of 60 000, 3 600 000 and 86 400 000 ms, with no daylight saving or local time. ISO text is represented by the instant it denotes.
- The phase objects are mutated in place by the builder. The model returns stamped copies instead, and `SettingsAfterSuccess` is given the stamped phases, which is what the success path reads.
- Some wizard code is not modelled: the effect that resets `deploymentDeviceCount` when the group or release changes (createdeployment.js:97-118: 1 or 0 from the device when there is no group or the group is unknown, the accepted count for ALL_DEVICES, otherwise the group's total from an asynchronous `getGroupDevices` call; the model takes `deviceCount` as an input instead), onboarding steps, tracking, navigation on close, the release search on mount, and the wizard's own `mapStateToProps` apart from removing the ungrouped entry.
- `getAnchor` is not modelled: it uses DOM geometry and floating-point division.
- Some device-groups code is not modelled: group creation and removal dialogs, snackbar texts, `getDeviceById`, `onFilterChange`, `_pauseInterval`, the constructor's initial fetch, and `_refreshGroups`. These are promise chains and timer handling around the modelled decisions.
- Dashboard's `_refreshAdmissions` and the in-progress count are not modelled. They are network calls whose results only set view state.
- Values the views receive are typed more narrowly than in JavaScript. NaN is not modelled. Filter values, ids and statuses are strings. The `open` flag is a boolean or undefined.
- `isEmpty` (helpers) is read as "undefined or empty" for the strings it is applied to.
- The device constants file is not part of this model. `ALL_DEVICES` and `UNGROUPED_GROUP` carry the upstream values, and no proof relies on them beyond `ConstantsDistinct`.
- StringOrder.Sort: compares characters as Unicode scalar values, whereas JavaScript compares UTF-16 code units. The two orders differ only between characters above U+FFFF and those in U+E000 to U+FFFF.
- Rendering, Redux `connect` wiring, and pass-through props (`showHelptips`, `deploymentDeviceLimit`) are not modelled.

=== FILE: dashboard.dfy ===
/** The dashboard's navigation target for a click (`_handleClick`) and the
    warning shown when deployments cannot be loaded (dashboard.js).
    `encode` stands for `encodeURIComponent`, and the path is returned
    instead of pushed onto the router's history. */
module Dashboard {
  import opened JsValues
  import opened RetryRequests

  /** refreshDeploymentsLength: the polling and retry interval. */
  const RefreshDeploymentsMillis: int := 30000

  /** The `params` a dashboard widget passes to its click handler. */
  datatype ClickParams = ClickParams(
    route: string,
    tab: Option<string>,
    open: Option<bool>,
    id: Option<string>,
    status: Option<string>)

  /** The open flag as a template string renders it, "undefined" included. */
  function OpenText(open: Option<bool>): (t: string)
    ensures '&' !in t && '/' !in t
  {
    match open
    case Some(b) => if b then "true" else "false"
    case None => "undefined"
  }

  /** The deployments tab: the given tab, or 'progress' when it is falsy. */
  function DeploymentsTab(tab: Option<string>): string {
    StrOr(tab, "progress")
  }

  /** The query before encoding: `open=<open>`, then `&id=<id>` when the id
      is truthy. */
  function DeploymentsQuery(open: Option<bool>, id: Option<string>): string {
    "open=" + OpenText(open) + (if StrTruthy(id) then "&id=" + id.value else "")
  }

  /** `_handleClick`: the path pushed for a click. */
  function ClickPath(p: ClickParams, encode: string -> string): (path: string)
    ensures p.route == "deployments" ==>
      path == "/deployments/" + DeploymentsTab(p.tab) + "/" + encode(DeploymentsQuery(p.open, p.id))
    ensures p.route == "devices" && StrTruthy(p.status) ==>
      path == "/devices/groups/" + encode("status=" + p.status.value)
    ensures p.route == "devices" && !StrTruthy(p.status) ==> path == "/devices/groups/"
    ensures p.route == "devices/pending" ==> path == "/devices/pending"
    ensures p.route !in ["deployments", "devices", "devices/pending"] ==> path == p.route
  {
    if p.route == "deployments" then
      var tab := DeploymentsTab(p.tab) + "/";
      var uriParams := encode(DeploymentsQuery(p.open, p.id));
      "/deployments/" + tab + uriParams
    else if p.route == "devices" then
      var filters := if StrTruthy(p.status) then encode("status=" + p.status.value) else "";
      "/devices/groups/" + filters
    else if p.route == "devices/pending" then
      "/devices/pending"
    else
      p.route
  }

  /** Splits `s` at the first `c`: the text before it, and the text after
      it if there is one. */
  function SplitAt(s: string, c: char): (string, Option<string>)
  {
    if |s| == 0 then ("", None)
    else if s[0] == c then ("", Some(s[1..]))
    else
      var (before, after) := SplitAt(s[1..], c);
      ([s[0]] + before, after)
  }

  lemma {:induction false} SplitAtFirst(a: string, c: char, b: string)
    requires c !in a
    ensures SplitAt(a + [c] + b, c) == (a, Some(b))
  {
    if |a| > 0 {
      var s := a + [c] + b;
      assert s[0] == a[0] && a[0] != c;
      assert s[1..] == a[1..] + [c] + b;
      SplitAtFirst(a[1..], c, b);
      assert [a[0]] + a[1..] == a;
    } else {
      assert a + [c] + b == [c] + b;
    }
  }

  /** Splits `s` at the last `c`: the text before it, and the text after it
      if there is one. */
  function SplitAtLast(s: string, c: char): (string, Option<string>)
  {
    if |s| == 0 then ("", None)
    else if s[|s| - 1] == c then (s[..|s| - 1], Some(""))
    else
      var (before, after) := SplitAtLast(s[..|s| - 1], c);
      match after
      case None => (s, None)
      case Some(a) => (before, Some(a + [s[|s| - 1]]))
  }

  lemma {:induction false} SplitAtLastOf(a: string, c: char, b: string)
    requires c !in b
    ensures SplitAtLast(a + [c] + b, c) == (a, Some(b))
    decreases |b|
  {
    var s := a + [c] + b;
    if |b| == 0 {
      assert s[..|s| - 1] == a;
    } else {
      var init := b[..|b| - 1];
      assert s[|s| - 1] == b[|b| - 1];
      assert s[..|s| - 1] == a + [c] + init;
      SplitAtLastOf(a, c, init);
      assert init + [b[|b| - 1]] == b;
    }
  }

  lemma {:induction false} SplitAtAbsent(a: string, c: char)
    requires c !in a
    ensures SplitAt(a, c) == (a, None)
  {
    if |a| > 0 {
      SplitAtAbsent(a[1..], c);
      assert [a[0]] + a[1..] == a;
    }
  }

  /** What the deployments page reads back from a path: the tab, and the
      decoded query's open flag text and id. */
  datatype DeploymentsLink = DeploymentsLink(tab: string, openText: string, id: Option<string>)

  const DeploymentsPrefix: string := "/deployments/"

  /** Reads a deployments path back, `decode` standing for
      `decodeURIComponent`. The tab is everything up to the last '/', since
      the encoded query never holds one. */
  function ParseDeploymentsPath(path: string, decode: string -> string): Option<DeploymentsLink>
  {
    if |path| < |DeploymentsPrefix| || path[..|DeploymentsPrefix|] != DeploymentsPrefix then None
    else
      var (tab, rest) := SplitAtLast(path[|DeploymentsPrefix|..], '/');
      if rest.None? then None
      else
        var query := decode(rest.value);
        if |query| < 5 || query[..5] != "open=" then None
        else
          var (openText, idPart) := SplitAt(query[5..], '&');
          match idPart
          case None => Some(DeploymentsLink(tab, openText, None))
          case Some(part) =>
            if |part| < 3 || part[..3] != "id=" then None
            else Some(DeploymentsLink(tab, openText, Some(part[3..])))
  }

  /** The deployments path carries exactly the tab (defaulted), the open
      flag and the id when it is truthy, and nothing else: reading it back
      with the inverse encoding recovers them. The encoding escapes '/', as
      `encodeURIComponent` does. */
  lemma {:induction false} DeploymentsPathRoundTrip(p: ClickParams, encode: string -> string, decode: string -> string)
    requires p.route == "deployments"
    requires forall x :: decode(encode(x)) == x
    requires forall x :: '/' !in encode(x)
    ensures ParseDeploymentsPath(ClickPath(p, encode), decode)
         == Some(DeploymentsLink(DeploymentsTab(p.tab), OpenText(p.open), if StrTruthy(p.id) then p.id else None))
  {
    var tab := DeploymentsTab(p.tab);
    var query := DeploymentsQuery(p.open, p.id);
    var path := ClickPath(p, encode);
    assert path[|DeploymentsPrefix|..] == tab + ['/'] + encode(query);
    SplitAtLastOf(tab, '/', encode(query));
    assert decode(encode(query)) == query;
    var open := OpenText(p.open);
    if StrTruthy(p.id) {
      assert query[5..] == open + ['&'] + ("id=" + p.id.value);
      SplitAtFirst(open, '&', "id=" + p.id.value);
      assert ("id=" + p.id.value)[3..] == p.id.value;
    } else {
      assert query[5..] == open;
      SplitAtAbsent(open, '&');
    }
  }

  /** Two deployment clicks that differ in tab, open flag or (truthy) id
      lead to different paths, whenever the encoding can be inverted and
      escapes '/'. */
  lemma DeploymentsPathsDistinguish(p: ClickParams, q: ClickParams, encode: string -> string, decode: string -> string)
    requires p.route == "deployments" && q.route == "deployments"
    requires forall x :: decode(encode(x)) == x
    requires forall x :: '/' !in encode(x)
    requires ClickPath(p, encode) == ClickPath(q, encode)
    ensures DeploymentsTab(p.tab) == DeploymentsTab(q.tab)
    ensures OpenText(p.open) == OpenText(q.open)
    ensures StrTruthy(p.id) == StrTruthy(q.id)
    ensures StrTruthy(p.id) ==> p.id == q.id
  {
    DeploymentsPathRoundTrip(p, encode, decode);
    DeploymentsPathRoundTrip(q, encode, decode);
  }

  const DeploymentsErrorPrefix: string := "Couldn't load deployments. "

  /** Unlike the device list's hint, this one has no closing period. */
  const DeploymentsConnectionHint: string := "Please check your connection"

  /** The warning `_refreshDeployments` hands to the retry timer:
      "Couldn't load deployments. " followed by `err.error`, or by the
      connection hint when the error carries no text. */
  function DeploymentsErrorMessage(error: Option<string>): (msg: string)
    ensures |DeploymentsErrorPrefix| <= |msg| && msg[..|DeploymentsErrorPrefix|] == DeploymentsErrorPrefix
    ensures StrTruthy(error) ==> msg[|DeploymentsErrorPrefix|..] == error.value
    ensures !StrTruthy(error) ==> msg[|DeploymentsErrorPrefix|..] == DeploymentsConnectionHint
  {
    DeploymentsErrorPrefix + StrOr(error, DeploymentsConnectionHint)
  }

  /** What a failed deployments fetch asks of the retry timer. */
  function DeploymentsRetry(error: Option<string>): (r: RetryRequest)
    ensures r.key == "deployments" && r.intervalMs == RefreshDeploymentsMillis
    ensures r.message == DeploymentsErrorMessage(error)
  {
    RetryRequest("deployments", DeploymentsErrorMessage(error), RefreshDeploymentsMillis)
  }
}

=== FILE: deployment_request.dfy ===
/** The deployment wizard's state rules and the request it submits
    (createdeployment.js): the device-id/count normalisation effect, the
    `filterId` lookup, the submit gate and `onScheduleSubmitClick`'s
    request assembly. */
module DeploymentRequest {
  import opened JsValues
  import opened DeviceStore
  import opened PhaseSchedule

  datatype Device = Device(id: DeviceId)

  datatype Release = Release(name: string)

  /** The wizard's `deploymentObject`, and with `filterId` filled in, the
      `deploymentSettings` handed to the submit handler. The update control
      map is carried as opaque text. */
  datatype DeploymentSettings = DeploymentSettings(
    device: Option<Device>,
    deviceIds: Option<seq<DeviceId>>,
    deviceCount: Option<int>,
    filterId: Option<string>,
    group: Option<string>,
    phases: Option<seq<Phase>>,
    release: Option<Release>,
    retries: Option<int>,
    updateControlMap: Option<string>)

  /** The request object handed to `createDeployment`; `None` is a key whose
      value is `undefined` (or, for `retries`, a key that is absent). */
  datatype Request = Request(
    artifactName: string,
    devices: Option<seq<DeviceId>>,
    filterId: Option<string>,
    allDevices: bool,
    group: Option<string>,
    name: string,
    phases: Option<seq<Phase>>,
    retries: Option<int>,
    updateControlMap: Option<string>)

  /** `validatePhases(phases, deviceCount, filterId)`, whose definition is not
      part of this model: any predicate of this shape. */
  type PhaseValidator = (Option<seq<Phase>>, Option<int>, Option<string>) -> bool

  /** The wizard's effect that keeps the device ids and count in step with
      the selection: a single device is the whole target; "All devices"
      counts every accepted device. */
  function Normalise(o: DeploymentSettings, acceptedDeviceCount: Option<int>): (r: DeploymentSettings)
    ensures o.device.Some? ==> r.deviceIds == Some([o.device.value.id]) && r.deviceCount == Some(1)
    ensures o.device.None? ==> r.deviceIds == Some(o.deviceIds.GetOr([]))
    ensures o.device.None? && o.group == Some(AllDevices) ==> r.deviceCount == acceptedDeviceCount
    ensures o.device.None? && o.group != Some(AllDevices) ==> r.deviceCount == o.deviceCount
    ensures r == o.(deviceIds := r.deviceIds, deviceCount := r.deviceCount)
  {
    var ids := if o.deviceIds.Some? then o.deviceIds.value else [];
    if o.device.Some? then
      var single := [o.device.value.id];
      o.(deviceIds := Some(single), deviceCount := Some(|single|))
    else if o.group == Some(AllDevices) then
      o.(deviceIds := Some(ids), deviceCount := acceptedDeviceCount)
    else
      o.(deviceIds := Some(ids))
  }

  /** The effect re-runs whenever the object changes; it reaches a fixed
      point after one run, so it does not keep re-triggering itself. */
  lemma NormaliseIdempotent(o: DeploymentSettings, accepted: Option<int>)
    ensures Normalise(Normalise(o, accepted), accepted) == Normalise(o, accepted)
  {
  }

  /** The JavaScript property key `groups[group]` reads: an undefined group
      is coerced to the key "undefined". */
  function GroupKey(group: Option<string>): string {
    if group.Some? then group.value else "undefined"
  }

  /** The filter id behind the chosen group: the `id` of the entry stored
      under the group's key, if there is one. The wizard's group table comes
      from its `mapStateToProps`, which leaves out the ungrouped devices'
      entry. */
  function FilterIdFor(byId: GroupTable, group: Option<string>): (r: Option<string>)
    ensures GroupKey(group) == UngroupedId ==> r.None?
    ensures GroupKey(group) != UngroupedId && Lookup(byId, GroupKey(group)).Some? ==>
      r == Lookup(byId, GroupKey(group)).value.id
    ensures Lookup(byId, GroupKey(group)).None? ==> r.None?
    ensures r.Some? ==> GroupKey(group) != UngroupedId && Lookup(byId, GroupKey(group)).Some?
  {
    var groups := Without(byId, UngroupedId);
    match Lookup(groups, GroupKey(group))
    case Some(entry) => entry.id
    case None => None
  }

  /** `deploymentSettings`: the wizard's object with the filter id of its
      group filled in, and nothing else changed. */
  function WithFilterId(o: DeploymentSettings, byId: GroupTable): (r: DeploymentSettings)
    ensures r == o.(filterId := r.filterId)
    ensures GroupKey(o.group) != UngroupedId && Lookup(byId, GroupKey(o.group)).Some? ==>
      r.filterId == Lookup(byId, GroupKey(o.group)).value.id
    ensures GroupKey(o.group) == UngroupedId || Lookup(byId, GroupKey(o.group)).None? ==> r.filterId.None?
  {
    o.(filterId := FilterIdFor(byId, o.group))
  }

  /** With no group chosen, the lookup reads the key "undefined", so a
      stored group literally named "undefined" still supplies a filter id. */
  lemma UndefinedGroupReadsUndefinedKey(byId: GroupTable)
    ensures FilterIdFor(byId, None) == FilterIdFor(byId, Some("undefined"))
    ensures Lookup(byId, "undefined").Some? ==> FilterIdFor(byId, None) == Lookup(byId, "undefined").value.id
  {
  }

  /** Some target is chosen: a non-zero device count, a filter or a group. */
  predicate HasTarget(s: DeploymentSettings) {
    NumTruthy(s.deviceCount) || StrTruthy(s.filterId) || StrTruthy(s.group)
  }

  /** Whether the "Create deployment" button is disabled. */
  function SubmitDisabled(isCreating: bool, s: DeploymentSettings, validate: PhaseValidator): (disabled: bool)
    ensures !disabled <==>
      !isCreating && s.release.Some? && HasTarget(s) && validate(s.phases, s.deviceCount, s.filterId)
  {
    isCreating
    || !(s.release.Some? && (NumTruthy(s.deviceCount) || StrTruthy(s.filterId) || StrTruthy(s.group)))
    || !validate(s.phases, s.deviceCount, s.filterId)
  }

  /** `onScheduleSubmitClick`'s request object. `clock(i)` is the clock
      reading phase i's start is computed with when phase 0 has no start;
      `decode` stands for
      `decodeURIComponent`. The handler dereferences `release.Name` without a
      guard, so it needs a release; an enabled button guarantees one
      (`EnabledSubmitHasRelease`). */
  function BuildRequest(s: DeploymentSettings, canRetry: bool, clock: nat -> Instant, decode: string -> string): (r: Request)
    requires s.release.Some?
    ensures r.artifactName == s.release.value.name
    ensures (StrTruthy(s.filterId) || StrTruthy(s.group)) && s.device.None? ==> r.devices.None?
    ensures !((StrTruthy(s.filterId) || StrTruthy(s.group)) && s.device.None?) ==> r.devices == s.deviceIds
    ensures r.filterId == s.filterId
    ensures r.allDevices <==> !StrTruthy(s.filterId) && s.group == Some(AllDevices)
    ensures s.device.Some? || s.group == Some(AllDevices) ==> r.group.None?
    ensures s.device.None? && s.group != Some(AllDevices) ==> r.group == s.group
    ensures s.device.Some? && s.device.value.id != "" ==> r.name == s.device.value.id
    ensures !(s.device.Some? && s.device.value.id != "") && StrTruthy(s.group) ==> r.name == decode(s.group.value)
    ensures !(s.device.Some? && s.device.value.id != "") && !StrTruthy(s.group) ==> r.name == AllDevices
    ensures r.retries.Some? <==> canRetry && NumTruthy(s.retries)
    ensures r.retries.Some? ==> r.retries == s.retries
    ensures r.phases.Some? <==> s.phases.Some?
    ensures s.phases.Some? ==> r.phases == Some(StampPhases(s.phases.value, clock))
    ensures r.updateControlMap == s.updateControlMap
  {
    var retries := if canRetry && NumTruthy(s.retries) then s.retries else None;
    var deviceName := if s.device.Some? then s.device.value.id else "";
    Request(
      artifactName := s.release.value.name,
      devices := if (StrTruthy(s.filterId) || StrTruthy(s.group)) && s.device.None? then None else s.deviceIds,
      filterId := s.filterId,
      allDevices := !StrTruthy(s.filterId) && s.group == Some(AllDevices),
      group := if s.group == Some(AllDevices) || s.device.Some? then None else s.group,
      name := if deviceName != "" then deviceName else if StrTruthy(s.group) then decode(s.group.value) else AllDevices,
      phases := if s.phases.Some? then Some(StampPhases(s.phases.value, clock)) else None,
      retries := retries,
      updateControlMap := s.updateControlMap)
  }

  /** An enabled button implies the handler's needs are met: a release to
      name and phases the validator accepted. */
  lemma EnabledSubmitHasRelease(isCreating: bool, s: DeploymentSettings, validate: PhaseValidator)
    requires !SubmitDisabled(isCreating, s, validate)
    ensures s.release.Some?
    ensures validate(s.phases, s.deviceCount, s.filterId)
    ensures !isCreating
  {
  }

  /** No request ever names a group for a single device, or both a group
      and "all devices"; a request without a device list targets a filter, a
      group or every device. */
  lemma TargetFieldsConsistent(s: DeploymentSettings, canRetry: bool, clock: nat -> Instant, decode: string -> string)
    requires s.release.Some?
    ensures var r := BuildRequest(s, canRetry, clock, decode);
      && (s.device.Some? ==> r.group.None?)
      && (r.allDevices ==> r.group.None? && !StrTruthy(r.filterId))
      && (r.devices.None? && s.deviceIds.Some? ==> StrTruthy(r.filterId) || StrTruthy(r.group) || r.allDevices)
  {
  }

  /** A normalised single-device selection is submitted as exactly that
      device, with no group and named after it. `filter_id` and
      `all_devices` do not look at the device, so they still follow a stale
      group the wizard holds. */
  lemma SingleDeviceSubmission(o: DeploymentSettings, accepted: Option<int>, byId: GroupTable,
                               canRetry: bool, clock: nat -> Instant, decode: string -> string)
    requires o.device.Some? && o.device.value.id != ""
    requires o.release.Some?
    ensures var r := BuildRequest(WithFilterId(Normalise(o, accepted), byId), canRetry, clock, decode);
      && r.devices == Some([o.device.value.id])
      && r.group.None?
      && r.name == o.device.value.id
      && r.filterId == FilterIdFor(byId, o.group)
      && (r.allDevices <==> !StrTruthy(FilterIdFor(byId, o.group)) && o.group == Some(AllDevices))
  {
  }

  /** With no device selected, a dynamic group (one backed by a saved
      filter) is submitted with both its `filter_id` and its `group`, and
      without a device list. */
  lemma DynamicGroupSubmission(o: DeploymentSettings, byId: GroupTable, g: string, filter: string,
                               canRetry: bool, clock: nat -> Instant, decode: string -> string)
    requires o.device.None? && o.release.Some?
    requires o.group == Some(g) && g != "" && g != AllDevices && g != UngroupedId
    requires filter != ""
    requires Lookup(byId, g).Some? && Lookup(byId, g).value.id == Some(filter)
    ensures var r := BuildRequest(WithFilterId(o, byId), canRetry, clock, decode);
      && r.filterId == Some(filter)
      && r.group == Some(g)
      && r.devices.None?
      && !r.allDevices
  {
    assert Lookup(Without(byId, UngroupedId), g) == Lookup(byId, g);
  }
}

=== FILE: device_groups.dfy ===
/** The decisions the device-groups view makes (device-groups.js):
    recognising the ungrouped pseudo-group, normalising a group choice,
    paging the ungrouped devices, classifying a removal, and choosing which
    fetch `_getDevices` issues and what follows its outcome. */
module DeviceGroups {
  import opened JsValues
  import opened DeviceStore
  import opened RetryRequests

  /** refreshDeviceLength: the device list's refresh and retry interval. */
  const RefreshDeviceMillis: int := 10000

  /** A device-list filter; only `key` and `value` are read here. */
  datatype Filter = Filter(key: string, value: Option<string>)

  /** `_isUngroupedGroup`: the group is the ungrouped pseudo-group, named by
      its id or its label; an undefined or empty group never is. */
  function IsUngroupedGroup(group: Option<string>): (r: bool)
    ensures r <==> group == Some(UngroupedId) || group == Some(UngroupedName)
    ensures !StrTruthy(group) ==> !r
  {
    if !StrTruthy(group) then false
    else group.value == UngroupedId || group.value == UngroupedName
  }

  /** The group `_handleGroupChange` selects: the ungrouped label is mapped
      to the ungrouped key, every other choice (including none) is kept. */
  function GroupChoice(group: Option<string>): (r: Option<string>)
    ensures group == Some(UngroupedName) ==> r == Some(UngroupedId)
    ensures group != Some(UngroupedName) ==> r == group
  {
    if group == Some(UngroupedId) || group == Some(UngroupedName) then Some(UngroupedId) else group
  }

  /** A choice is recognised as the ungrouped group exactly when it is
      normalised to the ungrouped key, and normalising never changes that
      recognition; normalising twice is normalising once. */
  lemma GroupChoiceRecognisesUngrouped(group: Option<string>)
    ensures IsUngroupedGroup(group) <==> GroupChoice(group) == Some(UngroupedId)
    ensures IsUngroupedGroup(GroupChoice(group)) == IsUngroupedGroup(group)
    ensures GroupChoice(GroupChoice(group)) == GroupChoice(group)
  {
    ConstantsDistinct();
  }

  /** The first list position of page `pageNo` (pages count from 1). */
  function PageOffset(pageNo: int, pageLength: int): (offset: int)
    ensures pageNo >= 1 && pageLength >= 0 ==> offset >= 0
  {
    var m := pageNo - 1;
    assert m >= 0 && pageLength >= 0 ==> m * pageLength >= 0;
    m * pageLength
  }

  /** The ungrouped devices shown on page `pageNo`: a slice of at most
      `pageLength` devices starting at the page's offset. */
  function UngroupedPage(ungrouped: seq<DeviceId>, pageNo: int, pageLength: int): (page: seq<DeviceId>)
    ensures pageNo >= 1 && pageLength >= 0 ==>
      && |page| <= pageLength
      && page == Window(ungrouped, PageOffset(pageNo, pageLength), pageLength)
  {
    var offset := PageOffset(pageNo, pageLength);
    var page := Slice(ungrouped, offset, offset + pageLength);
    assert pageNo >= 1 && pageLength >= 0 ==> page == Window(ungrouped, offset, pageLength) by {
      if pageNo >= 1 && pageLength >= 0 {
        WindowIsSlice(ungrouped, offset, pageLength);
      }
    }
    page
  }

  /** The devices from position `start` on, at most `len` of them. */
  function Window(s: seq<DeviceId>, start: nat, len: nat): (w: seq<DeviceId>)
    ensures |w| <= len
    ensures forall k | 0 <= k < |w| :: start + k < |s| && w[k] == s[start + k]
  {
    s[Min(start, |s|)..Min(start + len, |s|)]
  }

  lemma WindowIsSlice(s: seq<DeviceId>, start: nat, len: nat)
    ensures Slice(s, start, start + len) == Window(s, start, len)
  {
    SliceWindow(s, start, start + len);
  }

  /** Page `p` ends where or before page `q` begins. */
  lemma OffsetsOrdered(p: int, q: int, pageLength: int)
    requires 1 <= p < q && pageLength >= 0
    ensures PageOffset(p, pageLength) + pageLength <= PageOffset(q, pageLength)
  {
    var d := q - p - 1;
    assert d >= 0;
    assert (q - 1) * pageLength == (p - 1) * pageLength + pageLength + d * pageLength;
    assert d * pageLength >= 0;
  }

  /** Device k of page `pageNo` is device `offset + k` of the whole list. */
  lemma PageElement(ungrouped: seq<DeviceId>, pageNo: int, pageLength: int, k: nat)
    requires pageNo >= 1 && pageLength >= 0
    requires k < |UngroupedPage(ungrouped, pageNo, pageLength)|
    ensures PageOffset(pageNo, pageLength) + k < |ungrouped|
    ensures UngroupedPage(ungrouped, pageNo, pageLength)[k] == ungrouped[PageOffset(pageNo, pageLength) + k]
  {
  }

  /** Pages 1 to n, one after another. */
  function FirstPages(ungrouped: seq<DeviceId>, n: nat, pageLength: nat): seq<DeviceId> {
    if n == 0 then [] else FirstPages(ungrouped, n - 1, pageLength) + UngroupedPage(ungrouped, n, pageLength)
  }

  /** Paging neither skips nor repeats a device: the first n pages, laid end
      to end, are exactly the first n * pageLength devices. */
  lemma {:induction false} PagesTile(ungrouped: seq<DeviceId>, n: nat, pageLength: nat)
    ensures FirstPages(ungrouped, n, pageLength) == ungrouped[..Min(n * pageLength, |ungrouped|)]
  {
    if n > 0 {
      PagesTile(ungrouped, n - 1, pageLength);
      var before := (n - 1) * pageLength;
      assert PageOffset(n, pageLength) == before;
      assert before + pageLength == n * pageLength;
      assert before <= n * pageLength;
      var a := Min(before, |ungrouped|);
      var b := Min(n * pageLength, |ungrouped|);
      assert ungrouped[..a] + ungrouped[a..b] == ungrouped[..b];
    }
  }

  /** No device id twice. */
  predicate Distinct(s: seq<DeviceId>) {
    forall i, j | 0 <= i < j < |s| :: s[i] != s[j]
  }

  /** Two different pages of a list without repeats share no device. */
  lemma PagesDisjoint(ungrouped: seq<DeviceId>, p: int, q: int, pageLength: int, x: DeviceId)
    requires Distinct(ungrouped)
    requires 1 <= p < q && pageLength >= 0
    ensures !(x in UngroupedPage(ungrouped, p, pageLength) && x in UngroupedPage(ungrouped, q, pageLength))
  {
    var pp := UngroupedPage(ungrouped, p, pageLength);
    var qp := UngroupedPage(ungrouped, q, pageLength);
    if x in pp && x in qp {
      var a :| 0 <= a < |pp| && pp[a] == x;
      var b :| 0 <= b < |qp| && qp[b] == x;
      PageElement(ungrouped, p, pageLength, a);
      PageElement(ungrouped, q, pageLength, b);
      OffsetsOrdered(p, q, pageLength);
      assert false;
    }
  }

  /** How `_removeDevicesFromGroup` classifies a removal of selected rows. */
  datatype RemovalScope = RemovalScope(isGroupRemoval: bool, isPageRemoval: bool)

  /** A group removal when at least as many rows are selected as the group
      holds (never when the count is undefined, as a comparison with
      undefined is false); a page removal when every device on the page is
      selected. */
  function RemovalFlags(rows: seq<int>, groupCount: Option<int>, devices: seq<DeviceId>): (r: RemovalScope)
    ensures r.isGroupRemoval <==> groupCount.Some? && |rows| >= groupCount.value
    ensures r.isPageRemoval <==> |rows| == |devices|
  {
    RemovalScope(
      isGroupRemoval := groupCount.Some? && |rows| >= groupCount.value,
      isPageRemoval := |devices| == |rows|)
  }

  /** Selecting every row of a page that holds the whole group removes the
      group; selecting fewer rows than the group holds never does. */
  lemma RemovalOfWholeGroup(rows: seq<int>, groupCount: int, devices: seq<DeviceId>)
    ensures |rows| == |devices| && groupCount <= |devices| ==>
      RemovalFlags(rows, Some(groupCount), devices) == RemovalScope(true, true)
    ensures |rows| < groupCount ==> !RemovalFlags(rows, Some(groupCount), devices).isGroupRemoval
    ensures !RemovalFlags(rows, None, devices).isGroupRemoval
  {
  }

  /** The filters count as set when there is at least one and the first
      carries a truthy value. */
  predicate HasFilters(filters: seq<Filter>) {
    |filters| > 0 && StrTruthy(filters[0].value)
  }

  /** The first filter whose key is 'id', if any. */
  function FindIdFilter(filters: seq<Filter>): (r: Option<Filter>)
    ensures r.None? <==> forall i | 0 <= i < |filters| :: filters[i].key != "id"
    ensures r.Some? ==> exists i | 0 <= i < |filters| ::
      filters[i] == r.value && r.value.key == "id" && forall j | 0 <= j < i :: filters[j].key != "id"
  {
    if |filters| == 0 then None
    else if filters[0].key == "id" then Some(filters[0])
    else
      var r := FindIdFilter(filters[1..]);
      assert forall i | 0 <= i < |filters[1..]| :: filters[1..][i] == filters[i + 1];
      r
  }

  /** The call `_getDevices` makes. */
  datatype DevicesFetch =
    | ShowUngroupedPage
    | GroupDevices(group: string, pageNo: int, pageLength: int)
    | SingleDeviceLookup(id: Option<string>)
    | FilteredDevices(pageNo: int, pageLength: int, filters: seq<Filter>)
    | AcceptedByStatus(pageNo: int, pageLength: int, onGroupsTab: bool)

  /** `_getDevices`'s choice of fetch. */
  function ChooseDevicesFetch(selectedGroup: Option<string>, filters: seq<Filter>,
                              pageNo: int, pageLength: int, currentTab: string): (r: DevicesFetch)
    ensures r.ShowUngroupedPage? <==> IsUngroupedGroup(selectedGroup)
    ensures r.GroupDevices? <==> StrTruthy(selectedGroup) && !IsUngroupedGroup(selectedGroup)
    ensures r.GroupDevices? ==> r == GroupDevices(selectedGroup.value, pageNo, pageLength)
    ensures r.SingleDeviceLookup? <==>
      !StrTruthy(selectedGroup) && HasFilters(filters) && exists i | 0 <= i < |filters| :: filters[i].key == "id"
    ensures r.SingleDeviceLookup? ==> exists i | 0 <= i < |filters| ::
      filters[i].key == "id" && r.id == filters[i].value && forall j | 0 <= j < i :: filters[j].key != "id"
    ensures r.FilteredDevices? <==>
      !StrTruthy(selectedGroup) && HasFilters(filters) && forall i | 0 <= i < |filters| :: filters[i].key != "id"
    ensures r.FilteredDevices? ==> r == FilteredDevices(pageNo, pageLength, filters)
    ensures r.AcceptedByStatus? <==> !StrTruthy(selectedGroup) && !HasFilters(filters)
    ensures r.AcceptedByStatus? ==> r == AcceptedByStatus(pageNo, pageLength, currentTab == "Device groups")
  {
    if StrTruthy(selectedGroup) || HasFilters(filters) then
      if StrTruthy(selectedGroup) then
        if IsUngroupedGroup(selectedGroup) then ShowUngroupedPage
        else GroupDevices(selectedGroup.value, pageNo, pageLength)
      else
        match FindIdFilter(filters)
        case Some(f) => SingleDeviceLookup(f.value)
        case None => FilteredDevices(pageNo, pageLength, filters)
    else
      AcceptedByStatus(pageNo, pageLength, currentTab == "Device groups")
  }

  /** A selected group decides the fetch on its own: the filters play no part. */
  lemma GroupTakesPrecedence(selectedGroup: Option<string>, filters: seq<Filter>, others: seq<Filter>,
                             pageNo: int, pageLength: int, currentTab: string)
    requires StrTruthy(selectedGroup)
    ensures ChooseDevicesFetch(selectedGroup, filters, pageNo, pageLength, currentTab)
         == ChooseDevicesFetch(selectedGroup, others, pageNo, pageLength, currentTab)
  {
  }

  /** How a fetch ended: resolved, or rejected with `err.error`. */
  datatype FetchOutcome = Fetched | FetchFailed(error: Option<string>)

  /** What follows the fetch: devices selected, loading flags cleared, and
      a retry timer requested. */
  datatype FetchEffects = FetchEffects(
    selectDevices: Option<seq<DeviceId>>,
    stopsLoading: bool,
    stopsPageLoading: bool,
    retry: Option<RetryRequest>)

  const DevicesErrorPrefix: string := "Devices couldn't be loaded. "
  const ConnectionHint: string := "Please check your connection."

  /** The warning handed to the retry timer when the devices cannot be
      loaded: a fixed prefix and the error's text, or a connection hint when
      the error carries none. */
  function DevicesErrorMessage(error: Option<string>): (msg: string)
    ensures |DevicesErrorPrefix| <= |msg| && msg[..|DevicesErrorPrefix|] == DevicesErrorPrefix
    ensures StrTruthy(error) ==> msg[|DevicesErrorPrefix|..] == error.value
    ensures !StrTruthy(error) ==> msg[|DevicesErrorPrefix|..] == ConnectionHint
  {
    DevicesErrorPrefix + StrOr(error, ConnectionHint)
  }

  /** The `then`/`catch` handlers of `_getDevices`. The
      ungrouped page is served from memory by an already resolved promise,
      so its outcome is always `Fetched`; the single-device lookup's promise
      is returned without handlers. */
  function AfterDevicesFetch(fetch: DevicesFetch, outcome: FetchOutcome, ungrouped: seq<DeviceId>,
                             pageNo: int, pageLength: int): (r: FetchEffects)
    ensures r.selectDevices.Some? <==> fetch.ShowUngroupedPage?
    ensures fetch.ShowUngroupedPage? ==> r.selectDevices == Some(UngroupedPage(ungrouped, pageNo, pageLength))
    ensures r.stopsLoading <==> !fetch.SingleDeviceLookup?
    ensures r.stopsPageLoading <==> !fetch.SingleDeviceLookup? && (fetch.ShowUngroupedPage? || outcome.Fetched?)
    ensures r.retry.Some? <==> outcome.FetchFailed? && !fetch.ShowUngroupedPage? && !fetch.SingleDeviceLookup?
    ensures r.retry.Some? ==>
      r.retry.value == RetryRequest("devices", DevicesErrorMessage(outcome.error), RefreshDeviceMillis)
  {
    match fetch
    case SingleDeviceLookup(_) => FetchEffects(None, false, false, None)
    case ShowUngroupedPage => FetchEffects(Some(UngroupedPage(ungrouped, pageNo, pageLength)), true, true, None)
    case _ =>
      match outcome
      case Fetched => FetchEffects(None, true, true, None)
      case FetchFailed(error) =>
        FetchEffects(None, true, false, Some(RetryRequest("devices", DevicesErrorMessage(error), RefreshDeviceMillis)))
  }
}

=== FILE: device_selector.dfy ===
/** `mapStateToProps` of the device-groups view (device-groups.js): which
    devices the view shows, the group counts, and the group list.

    The store's `isEmpty` helper is not part of this model; it is read, as
    for the strings it is applied to here, as "undefined or empty". */
module DeviceSelector {
  import opened JsValues
  import opened DeviceStore
  import opened StringOrder
  import DeviceGroups

  /** How many accepted device ids the view is handed at most. */
  const AcceptedListLimit: int := 20

  /** The parts of `state.devices` the selector reads. */
  datatype DeviceState = DeviceState(
    selectedDeviceList: seq<DeviceId>,
    acceptedTotal: Option<int>,
    acceptedIds: seq<DeviceId>,
    rejectedTotal: Option<int>,
    groupsById: GroupTable,
    selectedGroup: Option<string>,
    selectedDevice: Option<DeviceId>,
    filters: Option<seq<DeviceGroups.Filter>>)

  /** The props the selector returns (pass-through props left out). */
  datatype GroupsViewProps = GroupsViewProps(
    acceptedDevices: int,
    acceptedDevicesList: seq<DeviceId>,
    allCount: int,
    devices: seq<DeviceId>,
    filters: seq<DeviceGroups.Filter>,
    groups: seq<string>,
    groupDevices: seq<DeviceId>,
    groupCount: Option<int>,
    selectedGroup: Option<string>,
    ungroupedDevices: seq<DeviceId>)

  /** A group the list shows: its total is truthy or it holds device ids. */
  predicate Listed(e: GroupEntry) {
    NumTruthy(e.total) || |e.deviceIds| > 0
  }

  /** The keys of the groups the list shows, in table order. */
  function ListedKeys(t: GroupTable): (keys: seq<string>)
    ensures forall k :: k in keys <==> exists i | 0 <= i < |t| :: t[i].key == k && Listed(t[i].entry)
  {
    if |t| == 0 then []
    else
      var rest := ListedKeys(t[1..]);
      assert forall i | 0 <= i < |t[1..]| :: t[1..][i] == t[i + 1];
      (if Listed(t[0].entry) then [t[0].key] else []) + rest
  }

  /** The group list: the listed keys, sorted. */
  function GroupList(t: GroupTable): (groups: seq<string>)
    ensures Sorted(groups)
    ensures multiset(groups) == multiset(ListedKeys(t))
    ensures forall k :: k in groups <==> exists i | 0 <= i < |t| :: t[i].key == k && Listed(t[i].entry)
  {
    var keys := ListedKeys(t);
    forall k
      ensures k in Sort(keys) <==> k in keys
    {
      SortSameMembers(keys, k);
    }
    Sort(keys)
  }

  /** The selector throws a TypeError: the selected group has no entry in
      the table (its total is read from undefined), or, with nothing
      selected and no listed devices, the filters are undefined (their
      length is read). */
  predicate SelectorThrows(s: DeviceState) {
    if StrTruthy(s.selectedGroup) then Lookup(s.groupsById, s.selectedGroup.value).None?
    else !StrTruthy(s.selectedDevice) && |s.selectedDeviceList| == 0 && s.filters.None?
  }

  /** The devices shown when neither a group nor a device is selected. */
  function UnselectedDevices(s: DeviceState): seq<DeviceId>
    requires s.filters.Some? || |s.selectedDeviceList| > 0
  {
    if |s.selectedDeviceList| == 0 && |s.filters.value| == 0 && NumTruthy(s.acceptedTotal)
    then Slice(s.acceptedIds, 0, AcceptedListLimit)
    else s.selectedDeviceList
  }

  /** `mapStateToProps`, `None` where it throws. */
  function SelectGroupsView(s: DeviceState): (r: Option<GroupsViewProps>)
    ensures r.None? <==> SelectorThrows(s)
    ensures r.Some? && StrTruthy(s.selectedGroup) ==>
      var entry := Lookup(s.groupsById, s.selectedGroup.value).value;
      && r.value.selectedGroup == s.selectedGroup
      && r.value.groupCount == entry.total
      && r.value.groupDevices == entry.deviceIds
      && r.value.devices == s.selectedDeviceList
    ensures r.Some? && !StrTruthy(s.selectedGroup) ==>
      && r.value.selectedGroup.None?
      && r.value.groupCount == s.acceptedTotal
      && r.value.groupDevices == []
    ensures r.Some? && !StrTruthy(s.selectedGroup) && StrTruthy(s.selectedDevice) ==>
      r.value.devices == [s.selectedDevice.value]
    ensures r.Some? && !StrTruthy(s.selectedGroup) && !StrTruthy(s.selectedDevice) ==>
      if |s.selectedDeviceList| == 0 && s.filters == Some([]) && NumTruthy(s.acceptedTotal)
      then r.value.devices == s.acceptedIds[..Min(AcceptedListLimit, |s.acceptedIds|)]
      else r.value.devices == s.selectedDeviceList
    ensures r.Some? ==>
      && |r.value.acceptedDevicesList| <= AcceptedListLimit
      && r.value.acceptedDevicesList == s.acceptedIds[..Min(AcceptedListLimit, |s.acceptedIds|)]
      && r.value.acceptedDevices == (if NumTruthy(s.acceptedTotal) then s.acceptedTotal.value else 0)
      && r.value.allCount == (if s.acceptedTotal.Some? && s.rejectedTotal.Some?
                              then s.acceptedTotal.value + s.rejectedTotal.value else 0)
      && r.value.filters == s.filters.GetOr([])
      && r.value.groups == GroupList(s.groupsById)
      && r.value.ungroupedDevices == (match Lookup(s.groupsById, UngroupedId)
                                      case Some(e) => e.deviceIds
                                      case None => [])
  {
    if SelectorThrows(s) then None
    else
      var ungrouped := match Lookup(s.groupsById, UngroupedId)
                       case Some(e) => e.deviceIds
                       case None => [];
      // the sum falls back to 0 when a total is undefined: undefined + n is NaN, which is falsy
      var allCount := if s.acceptedTotal.Some? && s.rejectedTotal.Some?
                      then s.acceptedTotal.value + s.rejectedTotal.value else 0;
      var accepted := Slice(s.acceptedIds, 0, AcceptedListLimit);
      SlicePrefix(s.acceptedIds, AcceptedListLimit);
      var view := GroupsViewProps(
        acceptedDevices := if NumTruthy(s.acceptedTotal) then s.acceptedTotal.value else 0,
        acceptedDevicesList := accepted,
        allCount := allCount,
        devices := s.selectedDeviceList,
        filters := s.filters.GetOr([]),
        groups := GroupList(s.groupsById),
        groupDevices := [],
        groupCount := s.acceptedTotal,
        selectedGroup := None,
        ungroupedDevices := ungrouped);
      if StrTruthy(s.selectedGroup) then
        var entry := Lookup(s.groupsById, s.selectedGroup.value).value;
        Some(view.(selectedGroup := s.selectedGroup, groupCount := entry.total, groupDevices := entry.deviceIds))
      else if StrTruthy(s.selectedDevice) then
        Some(view.(devices := [s.selectedDevice.value]))
      else
        Some(view.(devices := UnselectedDevices(s)))
  }

  /** Selecting a group, then a device, then falling back to the accepted
      devices is a strict priority: a chosen group hides the chosen device. */
  lemma GroupSelectionHidesDevice(s: DeviceState, device: DeviceId)
    requires StrTruthy(s.selectedGroup) && Lookup(s.groupsById, s.selectedGroup.value).Some?
    ensures var r := SelectGroupsView(s.(selectedDevice := Some(device)));
      r.Some? && r.value.devices == s.selectedDeviceList
  {
  }

  /** The group list holds no key twice when the table does not. */
  lemma GroupListDistinct(t: GroupTable, k: string)
    requires forall i, j | 0 <= i < j < |t| :: t[i].key != t[j].key
    ensures multiset(GroupList(t))[k] <= 1
  {
    ListedKeysCount(t, k);
  }

  lemma {:induction false} ListedKeysCount(t: GroupTable, k: string)
    requires forall i, j | 0 <= i < j < |t| :: t[i].key != t[j].key
    ensures multiset(ListedKeys(t))[k] <= 1
  {
    if |t| > 0 {
      ListedKeysCount(t[1..], k);
      if t[0].key == k {
        assert forall i | 0 <= i < |t[1..]| :: t[1..][i].key != k;
        assert k !in ListedKeys(t[1..]);
      }
    }
  }
}

=== FILE: device_store.dfy ===
/** The slice of the Redux device store that the deployment wizard and the
    device-groups view read, and the device constants they compare against.

    The constants file itself (constants/deviceConstants.js) is not part of
    this model; the values below are the upstream project's, and no proof
    depends on them beyond what `ConstantsDistinct` states. */
module DeviceStore {
  import opened JsValues

  type DeviceId = string

  /** ALL_DEVICES: the pseudo-group naming every accepted device. */
  const AllDevices: string := "All devices"

  /** UNGROUPED_GROUP.id: the store key under which ungrouped devices are kept. */
  const UngroupedId: string := "*|=ungrouped=|*"

  /** UNGROUPED_GROUP.name: the label the group list shows for them. */
  const UngroupedName: string := "Ungrouped"

  lemma ConstantsDistinct()
    ensures AllDevices != "" && UngroupedId != "" && UngroupedName != ""
    ensures UngroupedId != UngroupedName
  {
  }

  /** One entry of `state.devices.groups.byId`: `id` is the saved filter
      behind a dynamic group (absent for a static group). */
  datatype GroupEntry = GroupEntry(id: Option<string>, total: Option<int>, deviceIds: seq<DeviceId>)

  datatype GroupRecord = GroupRecord(key: string, entry: GroupEntry)

  /** `state.devices.groups.byId` as `Object.entries` lists it. */
  type GroupTable = seq<GroupRecord>

  /** `byId[key]`: the entry stored under `key`, or undefined. */
  function Lookup(t: GroupTable, key: string): (r: Option<GroupEntry>)
    ensures r.None? <==> forall i | 0 <= i < |t| :: t[i].key != key
    ensures r.Some? ==> exists i | 0 <= i < |t| :: t[i] == GroupRecord(key, r.value)
  {
    if |t| == 0 then None
    else if t[0].key == key then Some(t[0].entry)
    else
      var r := Lookup(t[1..], key);
      assert r.Some? ==> exists i | 0 <= i < |t[1..]| :: t[1..][i] == GroupRecord(key, r.value);
      assert forall i | 0 <= i < |t[1..]| :: t[1..][i] == t[i + 1];
      r
  }

  /** The table with the entry under `key` removed, as an object
      rest-destructuring leaves it. */
  function Without(t: GroupTable, key: string): (r: GroupTable)
    ensures forall i | 0 <= i < |r| :: r[i].key != key
    ensures forall k | k != key :: Lookup(r, k) == Lookup(t, k)
  {
    if |t| == 0 then []
    else if t[0].key == key then Without(t[1..], key)
    else [t[0]] + Without(t[1..], key)
  }
}

=== FILE: js_values.dfy ===
/** The few JavaScript value conventions the console's components lean on:
    `undefined`, truthiness of strings and numbers, `a || b` on strings and
    `Array.prototype.slice` with its clamping and negative indices. */
module JsValues {

  /** A value that may be `undefined`. */
  datatype Option<+T> = None | Some(value: T) {

    /** `x ?? fallback` */
    function GetOr(fallback: T): T {
      match this
      case Some(v) => v
      case None => fallback
    }
  }

  /** `if (s)` for a string that may be undefined: `undefined` and "" are falsy. */
  predicate StrTruthy(s: Option<string>) {
    s.Some? && s.value != ""
  }

  /** `if (n)` for a number that may be undefined: `undefined` and 0 are falsy
      (NaN is not modelled). */
  predicate NumTruthy(n: Option<int>) {
    n.Some? && n.value != 0
  }

  /** `s || fallback` for a string that may be undefined. */
  function StrOr(s: Option<string>, fallback: string): (r: string)
    ensures StrTruthy(s) ==> r == s.value
    ensures !StrTruthy(s) ==> r == fallback
  {
    if StrTruthy(s) then s.value else fallback
  }

  /** How `slice` resolves one index argument against a length: negative
      indices count from the end, and everything is clamped to [0, len]. */
  function SliceIndex(k: int, len: nat): (r: nat)
    ensures r <= len
    ensures 0 <= k <= len ==> r == k
    ensures k > len ==> r == len
    ensures k < 0 ==> r == if len + k < 0 then 0 else len + k
  {
    if k < 0 then (if len + k < 0 then 0 else len + k)
    else if k > len then len
    else k
  }

  /** `s.slice(start, end)` */
  function Slice<T>(s: seq<T>, start: int, end: int): (r: seq<T>)
    ensures |r| <= |s|
  {
    var b := SliceIndex(start, |s|);
    var e := SliceIndex(end, |s|);
    if b <= e then s[b..e] else []
  }

  function Min(a: int, b: int): int {
    if a <= b then a else b
  }

  /** `s.slice(0, n)` keeps the first n elements, or all of them when there are fewer. */
  lemma SlicePrefix<T>(s: seq<T>, n: nat)
    ensures Slice(s, 0, n) == s[..Min(n, |s|)]
  {
  }

  /** `s.slice(-n)` keeps the last n elements, or all of them when there are
      fewer; n must be positive, since `slice(-0)` is `slice(0)`, the whole. */
  lemma SliceLast<T>(s: seq<T>, n: int)
    requires n > 0
    ensures Slice(s, -n, |s|) == s[|s| - Min(n, |s|)..]
  {
  }

  /** `s.slice(b, e)` with 0 <= b <= e is the clamped window. */
  lemma SliceWindow<T>(s: seq<T>, b: nat, e: nat)
    requires b <= e
    ensures Slice(s, b, e) == s[Min(b, |s|)..Min(e, |s|)]
  {
  }
}

=== FILE: phase_schedule.dfy ===
/** Phased-rollout start times (`getPhaseStartTime` and the stamping loop of
    the deployment wizard's submit handler).

    Time is an integer count of milliseconds. `moment(...).add(delay, unit)`
    becomes addition of `delay` times a fixed unit length; calendar effects
    (daylight saving, month lengths) are not modelled. An ISO-8601 string is
    represented by the instant it denotes, so converting to ISO text is
    injective and parsing it back gives the same instant. */
module PhaseSchedule {
  import opened JsValues

  type Instant = int

  datatype DelayUnit = Minutes | Hours | Days

  function UnitMillis(u: DelayUnit): (ms: nat)
    ensures ms >= 60_000
  {
    match u
    case Minutes => 60_000
    case Hours => 3_600_000
    case Days => 86_400_000
  }

  /** A `start_ts` as the wizard holds it: absent, a `Date` picked by the
      user, or the ISO text of an instant. */
  datatype StartValue = Undefined | DateValue(at: Instant) | IsoText(at: Instant)

  /** One rollout phase. `delay` is the wait after this phase before the
      next one starts. */
  datatype Phase = Phase(batchSize: Option<int>, delay: int, delayUnit: DelayUnit, startTs: StartValue)

  function DelayMillis(p: Phase): int {
    p.delay * UnitMillis(p.delayUnit)
  }

  /** The ISO conversion applied to phase 0's start: a `Date` becomes the
      ISO text of its instant; anything without that method passes through. */
  function ToIso(v: StartValue): (r: StartValue)
    ensures r.Undefined? <==> v.Undefined?
    ensures !v.Undefined? ==> r == IsoText(v.at)
  {
    match v
    case DateValue(t) => IsoText(t)
    case _ => v
  }

  /** The instant a start value denotes; an undefined start means the
      current instant, as `moment` reads it. */
  function BaseInstant(startDate: StartValue, now: Instant): Instant {
    if startDate.Undefined? then now else startDate.at
  }

  /** The fold in `getPhaseStartTime`: each earlier phase's delay added to
      the running instant in turn. */
  function Accumulate(accu: Instant, phases: seq<Phase>): Instant
    decreases |phases|
  {
    if |phases| == 0 then accu
    else Accumulate(accu + DelayMillis(phases[0]), phases[1..])
  }

  /** Independent reference: the sum of all delays, taken from the back. */
  function TotalDelay(phases: seq<Phase>): int
  {
    if |phases| == 0 then 0
    else TotalDelay(phases[..|phases| - 1]) + DelayMillis(phases[|phases| - 1])
  }

  lemma {:induction false} TotalDelayFront(phases: seq<Phase>)
    requires |phases| > 0
    ensures TotalDelay(phases) == DelayMillis(phases[0]) + TotalDelay(phases[1..])
    decreases |phases|
  {
    var n := |phases|;
    if n == 1 {
      assert phases[..0] == [];
      assert phases[1..] == [];
    } else {
      var init := phases[..n - 1];
      TotalDelayFront(init);
      assert init[1..] == phases[1..][..n - 2];
      assert phases[1..][n - 2] == phases[n - 1];
    }
  }

  /** Adding the delays one after another reaches the same instant as adding
      their total at once. */
  lemma {:induction false} AccumulateIsBasePlusTotal(accu: Instant, phases: seq<Phase>)
    ensures Accumulate(accu, phases) == accu + TotalDelay(phases)
    decreases |phases|
  {
    if |phases| > 0 {
      AccumulateIsBasePlusTotal(accu + DelayMillis(phases[0]), phases[1..]);
      TotalDelayFront(phases);
    }
  }

  lemma TotalDelayStep(phases: seq<Phase>, i: nat)
    requires i < |phases|
    ensures TotalDelay(phases[..i + 1]) == TotalDelay(phases[..i]) + DelayMillis(phases[i])
  {
    assert phases[..i + 1][..i] == phases[..i];
  }

  /** Whether `getPhaseStartTime` throws: for a later phase with no phases
      before it, the fold hands back the start itself, and only a `Date` has
      the ISO conversion the function then calls. */
  predicate StartTimeThrows(phases: seq<Phase>, index: int, startDate: StartValue) {
    index >= 1 && |phases| == 0 && !startDate.DateValue?
  }

  /** `getPhaseStartTime`, with `now` standing for the clock reading an
      undefined start takes, and `None` for the TypeError it throws. */
  function PhaseStartTime(phases: seq<Phase>, index: int, startDate: StartValue, now: Instant): (r: Option<StartValue>)
    ensures r.None? <==> StartTimeThrows(phases, index, startDate)
    ensures index < 1 && startDate.Undefined? ==> r == Some(Undefined)
    ensures index < 1 && !startDate.Undefined? ==> r == Some(IsoText(startDate.at))
    ensures index >= 1 && r.Some? ==>
      r.value == IsoText(BaseInstant(startDate, now) + TotalDelay(phases[..Min(index, |phases|)]))
  {
    if index < 1 then Some(ToIso(startDate))
    else
      var before := Slice(phases, 0, index);
      SlicePrefix(phases, index);
      if |before| == 0 then
        // the fold returns the start value untouched
        match startDate
        case DateValue(t) => Some(IsoText(t))
        case _ => None
      else
        AccumulateIsBasePlusTotal(BaseInstant(startDate, now), before);
        Some(IsoText(Accumulate(BaseInstant(startDate, now), before)))
  }

  /** The start time the submit handler reads: phase 0's own start. */
  function PinnedStart(phases: seq<Phase>): StartValue {
    if |phases| > 0 then phases[0].startTs else Undefined
  }

  /** A clock whose readings, taken in order, never go back. */
  predicate Monotone(clock: nat -> Instant, n: nat) {
    forall a: nat, b: nat | a <= b < n :: clock(a) <= clock(b)
  }

  /** The submit handler's stamping of every phase's start, in list order.
      Each call of `getPhaseStartTime` reads the clock afresh, so phase i is
      computed with its own reading `clock(i)`. */
  function StampPhases(phases: seq<Phase>, clock: nat -> Instant): (r: seq<Phase>)
    ensures |r| == |phases|
    ensures forall i | 0 <= i < |r| :: r[i] == phases[i].(startTs := r[i].startTs)
    ensures |r| > 0 ==> r[0].startTs == ToIso(phases[0].startTs)
    ensures forall i | 1 <= i < |r| ::
      r[i].startTs == IsoText(BaseInstant(phases[0].startTs, clock(i)) + TotalDelay(phases[..i]))
  {
    var startTime := PinnedStart(phases);
    seq(|phases|, i requires 0 <= i < |phases| => phases[i].(startTs := PhaseStartTime(phases, i, startTime, clock(i)).value))
  }

  /** Each phase after the first starts its predecessor's delay after the
      predecessor's own start, plus however far the clock moved between the
      two readings when no start is pinned. With a pinned start the step is
      exactly the delay; with a clock that never goes back it is at least
      the delay. */
  lemma NextPhaseStart(phases: seq<Phase>, clock: nat -> Instant, i: nat)
    requires i + 1 < |phases|
    requires i > 0 || !phases[0].startTs.Undefined?
    ensures var r := StampPhases(phases, clock);
      var drift := if phases[0].startTs.Undefined? then clock(i + 1) - clock(i) else 0;
      r[i + 1].startTs == IsoText(r[i].startTs.at + DelayMillis(phases[i]) + drift)
    ensures !phases[0].startTs.Undefined? ==> var r := StampPhases(phases, clock);
      r[i + 1].startTs == IsoText(r[i].startTs.at + DelayMillis(phases[i]))
    ensures Monotone(clock, |phases|) ==> var r := StampPhases(phases, clock);
      r[i + 1].startTs.at >= r[i].startTs.at + DelayMillis(phases[i])
  {
    TotalDelayStep(phases, i);
    assert phases[..0] == [];
  }

  /** Without a pinned start, phase 0 stays undefined while the phases after
      it are counted from the clock. */
  lemma UnpinnedStartUsesNow(phases: seq<Phase>, clock: nat -> Instant)
    requires |phases| > 1 && phases[0].startTs.Undefined?
    ensures var r := StampPhases(phases, clock);
      r[0].startTs.Undefined? && r[1].startTs == IsoText(clock(1) + DelayMillis(phases[0]))
  {
    TotalDelayStep(phases, 0);
    assert phases[..0] == [];
  }

  /** A phase's start depends only on the pinned start and the phases before
      it: its own delay, and everything after it, play no part. */
  lemma StartIgnoresOwnAndLaterPhases(phases: seq<Phase>, other: seq<Phase>, clock: nat -> Instant, i: nat)
    requires i < |phases| && i < |other|
    requires phases[..i] == other[..i]
    requires phases[0].startTs == other[0].startTs
    ensures StampPhases(phases, clock)[i].startTs == StampPhases(other, clock)[i].startTs
  {
  }

  lemma {:induction false} TotalDelayMonotone(phases: seq<Phase>, i: nat, j: nat)
    requires i <= j <= |phases|
    requires forall k | 0 <= k < |phases| :: phases[k].delay >= 0
    ensures TotalDelay(phases[..i]) <= TotalDelay(phases[..j])
    decreases j - i
  {
    if i < j {
      TotalDelayStep(phases, j - 1);
      TotalDelayMonotone(phases, i, j - 1);
    }
  }

  /** With non-negative delays, and clock readings that do not go back
      between the two phases, a later phase never starts earlier. */
  lemma StartsNonDecreasing(phases: seq<Phase>, clock: nat -> Instant, i: nat, j: nat)
    requires i <= j < |phases|
    requires forall k | 0 <= k < |phases| :: phases[k].delay >= 0
    requires i > 0 || !phases[0].startTs.Undefined?
    requires phases[0].startTs.Undefined? ==> clock(i) <= clock(j)
    ensures var r := StampPhases(phases, clock);
      r[i].startTs.at <= r[j].startTs.at
  {
    TotalDelayMonotone(phases, i, j);
    TotalDelayMonotone(phases, 0, j);
    assert phases[..0] == [];
  }

  lemma {:induction false} TotalDelaySameDelays(a: seq<Phase>, b: seq<Phase>)
    requires |a| == |b|
    requires forall k | 0 <= k < |a| :: DelayMillis(a[k]) == DelayMillis(b[k])
    ensures TotalDelay(a) == TotalDelay(b)
    decreases |a|
  {
    if |a| > 0 {
      TotalDelaySameDelays(a[..|a| - 1], b[..|b| - 1]);
    }
  }

  /** Re-stamping already stamped phases changes nothing when the start is
      pinned (or the clock gives the same readings): phase 0's ISO text is
      read back as the same instant and every delay is untouched. */
  lemma {:induction false} StampIdempotent(phases: seq<Phase>, clock: nat -> Instant, later: nat -> Instant)
    requires |phases| > 0
    requires !phases[0].startTs.Undefined? || forall k: nat | k < |phases| :: later(k) == clock(k)
    ensures StampPhases(StampPhases(phases, clock), later) == StampPhases(phases, clock)
  {
    var r := StampPhases(phases, clock);
    var r2 := StampPhases(r, later);
    forall i | 1 <= i < |r|
      ensures r2[i] == r[i]
    {
      assert BaseInstant(r[0].startTs, later(i)) == BaseInstant(phases[0].startTs, clock(i));
      TotalDelaySameDelays(r[..i], phases[..i]);
    }
    assert r2[0] == r[0];
  }

  /** Without a pinned start the schedule moves with the clock: the same
      phases stamped at two different moments start phase 1 differently. */
  lemma UnpinnedScheduleGoesStale(phases: seq<Phase>, clock: nat -> Instant, later: nat -> Instant)
    requires |phases| > 1 && phases[0].startTs.Undefined?
    requires clock(1) != later(1)
    ensures StampPhases(phases, clock)[1].startTs != StampPhases(phases, later)[1].startTs
  {
    UnpinnedStartUsesNow(phases, clock);
    UnpinnedStartUsesNow(phases, later);
  }
}

=== FILE: previous_phases.dfy ===
/** The history of rollout patterns the wizard saves to the user's global
    settings after a deployment is created (createdeployment.js, success
    path of the submit handler): at most the five most recent patterns,
    a new one appended only when no saved pattern is already covered by it. */
module PreviousPhases {
  import opened JsValues
  import opened PhaseSchedule

  /** MAX_PREVIOUS_PHASES_COUNT */
  const MaxPreviousPhasesCount: int := 5

  /** `standardizePhases`, whose definition is not part of this model. */
  type Standardize = seq<Phase> -> seq<Phase>

  /** `deepCompare`, whose definition is not part of this model. */
  type PhaseEquals = (Phase, Phase) -> bool

  type Pattern = seq<Phase>

  /** Every phase of the saved pattern `prior` has a match somewhere in the
      new pattern `std`: a subset test, not equality of the two lists. */
  predicate Covered(prior: Pattern, std: Pattern, same: PhaseEquals) {
    forall i | 0 <= i < |prior| :: Matched(prior[i], std, same)
  }

  /** Some phase of `std` compares equal to `oldPhase`. */
  predicate Matched(oldPhase: Phase, std: Pattern, same: PhaseEquals) {
    exists j | 0 <= j < |std| :: same(std[j], oldPhase)
  }

  /** Some saved pattern is covered by `std`. */
  predicate AlreadySaved(saved: seq<Pattern>, std: Pattern, same: PhaseEquals) {
    exists k | 0 <= k < |saved| :: Covered(saved[k], std, same)
  }

  /** Every saved pattern, standardised. */
  function StandardizeAll(saved: seq<Pattern>, standardize: Standardize): (r: seq<Pattern>)
    ensures |r| == |saved|
    ensures forall k | 0 <= k < |r| :: r[k] == standardize(saved[k])
  {
    seq(|saved|, k requires 0 <= k < |saved| => standardize(saved[k]))
  }

  /** `xs` ends with `ys`. */
  predicate IsSuffix<T(==)>(ys: seq<T>, xs: seq<T>) {
    |ys| <= |xs| && ys == xs[|xs| - |ys|..]
  }

  /** The `previousPhases` list written back after a successful submit. */
  function NextPreviousPhases(saved: Option<seq<Pattern>>, phases: Pattern,
                              standardize: Standardize, same: PhaseEquals): (r: seq<Pattern>)
    ensures var prev := StandardizeAll(saved.GetOr([]), standardize);
      var std := standardize(phases);
      && |r| == Min(|prev| + (if AlreadySaved(prev, std, same) then 0 else 1), MaxPreviousPhasesCount)
      && IsSuffix(r, if AlreadySaved(prev, std, same) then prev else prev + [std])
      && (!AlreadySaved(prev, std, same) ==> r[|r| - 1] == std)
  {
    var std := standardize(phases);
    var prev := StandardizeAll(saved.GetOr([]), standardize);
    var list := if AlreadySaved(prev, std, same) then prev else prev + [std];
    SliceLast(list, MaxPreviousPhasesCount);
    Slice(list, -MaxPreviousPhasesCount, |list|)
  }

  /** The history never grows past five patterns. */
  lemma HistoryBounded(saved: Option<seq<Pattern>>, phases: Pattern, standardize: Standardize, same: PhaseEquals)
    ensures |NextPreviousPhases(saved, phases, standardize, same)| <= MaxPreviousPhasesCount
  {
  }

  /** A saved pattern that standardises to no phases at all is covered by
      every new pattern, so once present nothing new is ever appended. */
  lemma EmptyPatternBlocksAppend(saved: seq<Pattern>, k: nat, phases: Pattern,
                                 standardize: Standardize, same: PhaseEquals)
    requires k < |saved| && standardize(saved[k]) == []
    ensures var prev := StandardizeAll(saved, standardize);
      NextPreviousPhases(Some(saved), phases, standardize, same) == prev[|prev| - Min(|prev|, MaxPreviousPhasesCount)..]
  {
    var prev := StandardizeAll(saved, standardize);
    assert Covered(prev[k], standardize(phases), same);
  }

  /** A new pattern that merely extends a saved one (every saved phase
      reappears in it) is not recorded, though the two lists differ. */
  lemma ExtendedPatternNotRecorded(saved: seq<Pattern>, k: nat, phases: Pattern,
                                   standardize: Standardize, same: PhaseEquals)
    requires forall p :: same(p, p)
    requires k < |saved|
    requires forall i | 0 <= i < |standardize(saved[k])| :: standardize(saved[k])[i] in standardize(phases)
    ensures var prev := StandardizeAll(saved, standardize);
      NextPreviousPhases(Some(saved), phases, standardize, same) == prev[|prev| - Min(|prev|, MaxPreviousPhasesCount)..]
  {
    var prev := StandardizeAll(saved, standardize);
    var std := standardize(phases);
    assert prev[k] == standardize(saved[k]);
    forall i | 0 <= i < |prev[k]|
      ensures Matched(prev[k][i], std, same)
    {
      var j :| 0 <= j < |std| && std[j] == prev[k][i];
      assert same(std[j], prev[k][i]);
    }
    assert Covered(prev[k], std, same);
  }

  /** A pattern none of whose saved predecessors it covers becomes the most
      recent entry, and the oldest entry drops out once five are kept. */
  lemma NewPatternRecorded(saved: seq<Pattern>, phases: Pattern, standardize: Standardize, same: PhaseEquals)
    requires !AlreadySaved(StandardizeAll(saved, standardize), standardize(phases), same)
    ensures var prev := StandardizeAll(saved, standardize);
      var r := NextPreviousPhases(Some(saved), phases, standardize, same);
      && r[|r| - 1] == standardize(phases)
      && (|saved| < MaxPreviousPhasesCount ==> r == prev + [standardize(phases)])
      && (|saved| >= MaxPreviousPhasesCount ==> r == prev[|prev| - 4..] + [standardize(phases)])
  {
    var prev := StandardizeAll(saved, standardize);
    var list := prev + [standardize(phases)];
    var r := NextPreviousPhases(Some(saved), phases, standardize, same);
    if |saved| >= MaxPreviousPhasesCount {
      assert list[|list| - 5..] == prev[|prev| - 4..] + [standardize(phases)];
    }
  }

  /** The user's global settings as far as the wizard reads and writes
      them. In the settings the success path saves, `None` for
      `previousPhases` means the key is not written at all. */
  datatype Settings = Settings(retries: Option<int>, previousPhases: Option<seq<Pattern>>)

  /** The settings saved once `createDeployment` resolves. `phases` are the
      wizard's phases, which the request builder has already stamped in place. */
  function SettingsAfterSuccess(global: Settings, hasNewRetryDefault: bool, retries: Option<int>,
                                phases: Option<Pattern>, standardize: Standardize, same: PhaseEquals): (r: Settings)
    ensures r.retries == (if hasNewRetryDefault then retries else global.retries)
    ensures r.previousPhases.Some? <==> phases.Some?
    ensures phases.Some? ==>
      r.previousPhases == Some(NextPreviousPhases(global.previousPhases, phases.value, standardize, same))
    ensures r.previousPhases.Some? ==> |r.previousPhases.value| <= MaxPreviousPhasesCount
  {
    var kept := if hasNewRetryDefault then retries else global.retries;
    match phases
    case Some(ps) => Settings(kept, Some(NextPreviousPhases(global.previousPhases, ps, standardize, same)))
    case None => Settings(kept, None)
  }
}

=== FILE: retry_request.dfy ===
/** The key, message and interval the views hand to `setRetryTimer`. The
    error object and the notifier argument are not kept, and the retry-timer
    registry itself (utils/retrytimer.js) is not part of this model. */
module RetryRequests {

  datatype RetryRequest = RetryRequest(key: string, message: string, intervalMs: int)
}

=== FILE: string_order.dfy ===
/** The order `Array.prototype.sort()` puts strings in when given no
    comparator: character by character, a proper prefix first, and an
    insertion sort that produces it. */
module StringOrder {

  /** `a` sorts no later than `b`. */
  predicate Below(a: string, b: string)
  {
    |a| == 0 || (|b| > 0 && (a[0] < b[0] || (a[0] == b[0] && Below(a[1..], b[1..]))))
  }

  lemma {:induction false} BelowTotal(a: string, b: string)
    ensures Below(a, b) || Below(b, a)
  {
    if |a| > 0 && |b| > 0 && a[0] == b[0] {
      BelowTotal(a[1..], b[1..]);
    }
  }

  lemma {:induction false} BelowTransitive(a: string, b: string, c: string)
    requires Below(a, b) && Below(b, c)
    ensures Below(a, c)
  {
    if |a| > 0 && a[0] == b[0] && b[0] == c[0] {
      BelowTransitive(a[1..], b[1..], c[1..]);
    }
  }

  predicate Sorted(s: seq<string>)
  {
    forall i, j | 0 <= i < j < |s| :: Below(s[i], s[j])
  }

  /** Inserts `x` before the first element it sorts no later than. */
  function Insert(x: string, s: seq<string>): (r: seq<string>)
    ensures multiset(r) == multiset(s) + multiset{x}
  {
    if |s| == 0 then [x]
    else if Below(x, s[0]) then [x] + s
    else
      assert s == [s[0]] + s[1..];
      [s[0]] + Insert(x, s[1..])
  }

  lemma {:induction false} InsertSorted(x: string, s: seq<string>)
    requires Sorted(s)
    ensures Sorted(Insert(x, s))
  {
    if |s| == 0 {
    } else if Below(x, s[0]) {
      forall j | 0 <= j < |s|
        ensures Below(x, s[j])
      {
        if j > 0 {
          BelowTransitive(x, s[0], s[j]);
        }
      }
    } else {
      BelowTotal(x, s[0]);
      var tail := s[1..];
      var rest := Insert(x, tail);
      InsertSorted(x, tail);
      forall j | 0 <= j < |rest|
        ensures Below(s[0], rest[j])
      {
        assert rest[j] in multiset(rest);
        if rest[j] != x {
          assert rest[j] in multiset(tail);
          var k :| 0 <= k < |tail| && tail[k] == rest[j];
          assert s[k + 1] == rest[j];
        }
      }
      var r := [s[0]] + rest;
      forall i, j | 0 <= i < j < |r|
        ensures Below(r[i], r[j])
      {
        if i > 0 {
          assert r[i] == rest[i - 1] && r[j] == rest[j - 1];
        } else {
          assert r[j] == rest[j - 1];
        }
      }
    }
  }

  /** The strings of `s` in ascending order, duplicates kept. */
  function Sort(s: seq<string>): (r: seq<string>)
    ensures multiset(r) == multiset(s)
    ensures Sorted(r)
  {
    if |s| == 0 then []
    else
      assert s == [s[0]] + s[1..];
      var rest := Sort(s[1..]);
      InsertSorted(s[0], rest);
      Insert(s[0], rest)
  }

  /** Sorting keeps exactly the same strings. */
  lemma SortSameMembers(s: seq<string>, x: string)
    ensures x in Sort(s) <==> x in s
  {
    assert x in Sort(s) <==> x in multiset(Sort(s));
    assert x in s <==> x in multiset(s);
  }
}
